=== FILE: README.md ===
# Mission relay: a Dafny model

`index.js` is a one-route HTTP relay. `GET /mission` takes a percent-encoded
`description` and a `total_points` value. It decodes the description
(`decodeMission`) and asks a language-model completion API for mission
details. It then turns the model's free-text reply into JSON
(`extractJsonFromResponse`) and answers with the decoded mission, the points
as given, and the extracted details. Every failure after parameter
validation is reported inside a 200 response as an `{ error: ... }` object.

The model covers the string logic and the decision logic of that route:

- `uri.dfy` — `decodeURIComponent` as the Decode operation of section
  19.2.6 of ECMA-262 with an empty reserved set. A `%` must be followed by
  two hexadecimal digits. Escaped octets must form valid UTF-8 (section 3
  of RFC 3629): no stray continuation octet, no overlong form, no
  surrogate, nothing above U+10FFFF. Supplementary code points come back
  as surrogate pairs. `None` stands for the `URIError`, and
  `DecodeMission` falls back to its input on `None`. `encodeURIComponent`
  is modelled too, as the partner the round-trip lemma inverts.
- `unicode.dfy` — JavaScript strings as sequences of UTF-16 code units (lone
  surrogates allowed), and the UTF-8 and UTF-16 encodings.
- `text.dfy` — `String.prototype.trim` and the whitespace class it shares
  with the regular-expression escape `\s` (WhiteSpace and LineTerminator of
  ECMA-262). Also a first-occurrence search.
- `fence.dfy` — the match of the pattern that finds the fenced JSON
  block. The match is computed by index arithmetic and proved equal to the
  first match in a backtracking engine's order: leftmost start, greedy
  `\s*`, lazy capture, greedy `\s*`.
- `extractor.dfy` — `extractJsonFromResponse`. `JSON.parse` is an oracle
  `JsString -> Option<Json>`, where `None` means it throws.
- `mission.dfy` — what `getMissionDetails` makes of the upstream outcome,
  and the `/mission` handler. The handler validates the query, calls the
  upstream service once (also an oracle) and assembles the response.
- `scenarios.dfy` — concrete requests and replies worked through the model.
- `json.dfy`, `wrappers.dfy` — JSON values, property lookup, and `Option`.

Two failure paths of `getMissionDetails` are easy to misread:

- A reply whose `choices` is missing yields "Unexpected AI response format."
  (index.js:63). A thrown POST gives "Failed to generate mission details."
  (index.js:65-67), and so does the case in the next item.
- A truthy `content` that is not a string makes `aiContent.trim()` throw
  inside the same `try` block. It therefore also surfaces as "Failed to
  generate mission details." (index.js:65-67).

## Model

| member | source | states |
|---|---|---|
| Uri.Decode | index.js:12 | decodeURIComponent: a successful decoding is never longer than its input; the rest of its contract is carried by DecodeWithoutPercent, DecodeAppend, MalformedEscapeRejected, InvalidUtf8EscapeRejected, TruncatedGroupRejected, InvalidLeadOctetRejected, HexOctet (hexadecimal digits of either case) and DecodeInvertsEncode |
| Uri.DecodeMission | index.js:10-16 | when decodeURIComponent succeeds its result is returned; when it throws the description is returned unchanged, so no exception escapes |
| Uri.DecodeWithoutPercent | index.js:12 | a string without '%' decodes to itself |
| Uri.DecodeAppend | index.js:12 | when a string decodes, appending a second string appends the second decoding, and the whole throws exactly when the second part does |
| Uri.DecodeCopiesPlainPrefix | index.js:12 | a '%'-free prefix is copied unchanged in front of the decoding of the rest, and does not change whether decoding fails |
| Uri.DecodeMissionWithoutPercent | index.js:10-16 | decodeMission returns a string without '%' unchanged |
| Uri.ParseEscapesShape | index.js:12 | continuation octets are accepted only as "%HH" groups with two hexadecimal digits |
| Uri.MalformedEscapeRejected | index.js:12 | any '%' not followed by two hexadecimal digits, anywhere in the string, makes decodeURIComponent throw |
| Uri.MalformedEscapeKeepsInput | index.js:13-15 | for a string with a malformed escape decodeMission returns the input as is |
| Uri.DecodeMissionShrinks | index.js:10-16 | decodeMission never lengthens the description |
| Uri.ParseEscapesOfEscaped | index.js:12 | continuation parsing recovers exactly the octets that were escaped |
| Uri.DecodeEscapedCodePoint | index.js:12 | the escaped UTF-8 octets of any scalar value decode to that value's UTF-16 form, followed by the decoding of the rest |
| Uri.DecodeInvertsEncode | index.js:12 | decodeURIComponent inverts encodeURIComponent (modelled as Uri.Encode, which throws on a lone surrogate) on every string the encoder accepts, supplementary characters included |
| Uri.DecodeMissionInvertsEncode | index.js:10-16 | decodeMission of an encodeURIComponent result is the original string |
| Uri.HexValue | index.js:12 | a digit's value is below 16, and a lower-case letter a-f has the value of its upper-case form |
| Uri.HexOctet | index.js:12 | an escape's two code units give an octet exactly when both are hexadecimal digits, and the octet's high and low nibbles are their values |
| Uri.InvalidUtf8EscapeRejected | index.js:12 | wherever it stands after a part that decodes, and whatever follows, an escape group (hexadecimal digits of either case) whose lead octet announces 2 to 4 octets but whose octets encode no scalar value makes decodeURIComponent throw |
| Uri.InvalidLeadOctetRejected | index.js:12 | wherever it stands after a part that decodes, and whatever follows, an escaped lead octet that announces one octet or more than four makes decodeURIComponent throw |
| Uri.TruncatedGroupRejected | index.js:12 | wherever it stands after a part that decodes, a lead octet announcing n octets followed by fewer than n-1 continuation escapes, then the end of the string or a code unit other than '%', makes decodeURIComponent throw |
| Uri.InvalidUtf8KeepsInput | index.js:13-15 | decodeMission returns unchanged a description that holds such an invalid UTF-8 escape group after a part that decodes, whatever follows |
| Unicode.Utf8DecodeMulti | index.js:12 | only valid UTF-8 is accepted: any accepted value is a scalar value whose encoding is exactly those octets (the converse is Utf8RoundTrip) |
| Unicode.Utf8RoundTrip | index.js:12 | every multi-octet UTF-8 encoding is accepted and yields its code point |
| Unicode.Utf8Encode | index.js:12 | the encoding length grows with the code point range at 0x80, 0x800 and 0x10000; the lead octet announces the length; the rest are continuation octets |
| Unicode.Utf16Encode | index.js:12 | one code unit below 0x10000, otherwise a high/low surrogate pair that denotes the code point |
| Text.SkipWhite | index.js:25 | greedy `\s*`: everything skipped is whitespace and the stop is not |
| Text.RunStart | index.js:25 | the whitespace run before a position: all whitespace, preceded by non-whitespace or the lower bound |
| Text.Trim | index.js:22 | trim never lengthens a string, and a non-empty result neither starts nor ends with whitespace; TrimSpec adds that only whitespace is cut and that the result is empty exactly for all-whitespace input |
| Text.TrimSpec | index.js:22 | trim returns a slice with only whitespace cut on either side; the result neither starts nor ends with whitespace; it is empty exactly when the input is all whitespace |
| Text.Find | index.js:25 | a search result is an occurrence with none before it; no result means no occurrence |
| Text.FindIsFirst | index.js:25 | the search returns exactly the first occurrence at or after its start |
| Fence.FindFence | index.js:25 | the reported span is a match of the fence pattern, opening at the first "```json" and closing at the first "```" after it, with the capture group's ends not whitespace |
| Fence.FindFenceIsFirstMatch | index.js:25 | the reported match is the one a backtracking engine reports first; when none is reported the pattern does not match at all |
| Fence.FenceFoundIff | index.js:25-26 | the pattern matches exactly when some "```json" is followed by a "```" |
| Fence.Payload | index.js:26 | the capture group exists exactly when the pattern matches |
| Fence.PayloadShape | index.js:25-26 | the capture group is trimmed and contains no "```"; it follows the first "```json" and whitespace; only whitespace separates it from the first later "```" |
| Extractor.ParseInput | index.js:20-26 | nothing is parsed for an absent or empty reply; otherwise the trimmed reply is parsed when it has no fence, and only the capture group when it does |
| Extractor.ExtractJson | index.js:19-34 | an absent or empty reply gives the empty-response error; otherwise JSON.parse's value is returned as is, and a SyntaxError becomes the parse-failure error |
| Extractor.FencedReplyParsesPayload | index.js:25-29 | for a fenced reply the parser sees the capture group and nothing else |
| Mission.MissionDetails | index.js:59-67 | a throwing POST or a non-string content gives the generation failure; missing choices give the unexpected-format error; a missing or empty content gives the empty-response error; string content goes through extractJsonFromResponse |
| Mission.HandleMission | index.js:72-86 | status 400 exactly when a parameter is missing or empty, with the missing-parameters body and no upstream call; otherwise status 200 after exactly one upstream call |
| Mission.AcceptedRequestShape | index.js:79-86 | an accepted request calls the upstream with the decoded mission and the points verbatim, and the body is an object of exactly three members that echoes both next to the details, error object or not |
| Mission.UpstreamFailureStill200 | index.js:65-86 | a failing upstream still yields status 200, with the generation failure as the details |
| Mission.ErrorMessagesDistinct | index.js:20-76 | the five error messages are pairwise distinct |
| Scenarios.DecodeWriteTests | index.js:10-16 | a description that still reads "Write%20tests" after express's decoding (request description=Write%2520tests) is decoded once more to "Write tests" |
| Scenarios.DecodeLowerCaseEscapes | index.js:12 | lower-case escapes decode: "%c3%a9" gives U+00E9 |
| Scenarios.DecodeEuroSign | index.js:12 | "%E2%82%AC" decodes to U+20AC |
| Scenarios.InvalidUtf8Rejected | index.js:12 | "%80", "%C0%AF", "%ED%A0%80" and "%E4%B8" all make decodeURIComponent throw |
| Scenarios.TrailingPercentKept | index.js:13-15 | decodeMission keeps "100%" as it is |
| Scenarios.FencedReplyMatch | index.js:25 | in "```json\n{"a":1}\n```" the pattern matches with the capture group at positions 8 to 15 |
| Scenarios.FencedReplyParsesObject | index.js:22-26 | the fenced reply hands exactly {"a":1} to JSON.parse |
| Scenarios.UnfencedReplyParsedWhole | index.js:22-26 | an unfenced {"a":1} is parsed whole |
| Scenarios.WriteTestsRequest | index.js:72-86 | the request description=Write%20tests, total_points=100, which reaches the handler as "Write tests" and "100", against a fenced reply yields status 200 with mission "Write tests", points "100", and the parse of {"a":1} |
| Scenarios.MissingTotalPointsRejected | index.js:75-77 | a request without total_points, or with an empty one, yields status 400 with the missing-parameters body and no upstream call |

## Left out

- Process bootstrap (index.js:1-7, 89-91): dotenv, the express app, the port and `listen` are configuration with no logic.
- The upstream POST (index.js:39-57): the URL, model name, prompt text and authorization header are not modelled. The call is a function parameter `UpstreamRequest -> Upstream` that sees the decoded mission and the points, and either throws or returns a reply.
- `JSON.parse` (index.js:29): it is a function parameter, and its grammar and number conversion are not modelled. JSON numbers are carried as `real` rather than IEEE doubles.
- Logging (index.js:31, 66): `console.error` has no effect on any result.
- Express query parsing (index.js:73): each parameter is absent or a single string, already decoded once by express. Repeated parameters give arrays in express; this model does not cover them.
- Mission.Content: a falsy non-string `content` (`null`, `0`, `false`) is merged into `Missing`. It takes the same path as `undefined` at index.js:20.
- Response serialisation: `res.json` writes the body, and the body here is the `Json` value before serialisation.
- The CORS variant of the script: it differs only in middleware configuration.
- Unicode.Bmp: literal helper for the constants. It covers only text within the Basic Multilingual Plane, which all the relay's messages and keys are.

=== FILE: extractor.dfy ===
/** extractJsonFromResponse (index.js): turns the model's reply text into a
    JSON value, stripping an optional ```json fence first. */
module Extractor {

  import opened Wrappers
  import opened Unicode
  import opened Text
  import opened Fence
  import opened JsonValues

  const EmptyResponse: JsString := Bmp("Empty response from AI.")

  const ParseFailure: JsString := Bmp("Failed to parse AI response.")

  /** The text handed to `JSON.parse`, or None when the reply is absent or
      empty and nothing is parsed. A present reply is trimmed; when the
      trimmed text holds a "```json" with a later "```", only the capture
      group of the first fence is parsed, otherwise the whole trimmed text. */
  function ParseInput(content: Option<JsString>): (r: Option<JsString>)
    ensures r.None? <==> content.None? || content.value == []
    ensures r.Some? && !HasFence(Trim(content.value)) ==> r.value == Trim(content.value)
    ensures r.Some? && HasFence(Trim(content.value)) ==> Payload(Trim(content.value)) == r
  {
    match content
    case None => None
    case Some(text) =>
      if text == [] then None
      else
        var t := Trim(text);
        FenceFoundIff(t);
        match Payload(t)
        case Some(payload) => Some(payload)
        case None => Some(t)
  }

  /** extractJsonFromResponse. `content` is `choices[0].message.content`
      when it is a string, None when it is absent or another falsy value.
      An absent or empty reply is an error without any parse; a reply whose
      trimmed text has no "```json" followed by "```" is parsed whole; a
      fenced reply has only its capture group parsed. A parse failure is an
      error, a parsed value is returned as it is. */
  function ExtractJson(content: Option<JsString>, parse: Parser): (r: Json)
    ensures content.None? || content == Some([]) ==> r == ErrorObject(EmptyResponse)
    ensures content.Some? && content.value != [] && !HasFence(Trim(content.value)) ==>
              r == parse(Trim(content.value)).GetOr(ErrorObject(ParseFailure))
    ensures content.Some? && content.value != [] && HasFence(Trim(content.value)) ==>
              && Payload(Trim(content.value)).Some?
              && r == parse(Payload(Trim(content.value)).value).GetOr(ErrorObject(ParseFailure))
  {
    FenceFoundIff(Trim(content.GetOr([])));
    var input := ParseInput(content);
    if input.None? then ErrorObject(EmptyResponse)
    else parse(input.value).GetOr(ErrorObject(ParseFailure))
  }

  /** The parser is consulted at most once, on the parse input: two parsers
      that agree there give the same result, and an absent or empty reply
      gives the same result whatever the parser. */
  lemma ExtractJsonConsultsParserOnce(content: Option<JsString>, parse1: Parser, parse2: Parser)
    requires ParseInput(content).Some? ==> parse1(ParseInput(content).value) == parse2(ParseInput(content).value)
    ensures ExtractJson(content, parse1) == ExtractJson(content, parse2)
  {
  }

  /** A fenced reply: only the capture group of the first fence is parsed
      (its shape is stated by Fence.PayloadShape). */
  lemma FencedReplyParsesPayload(text: JsString, parse: Parser)
    requires text != [] && HasFence(Trim(text))
    ensures Payload(Trim(text)).Some?
    ensures ParseInput(Some(text)) == Payload(Trim(text))
    ensures ExtractJson(Some(text), parse) == parse(Payload(Trim(text)).value).GetOr(ErrorObject(ParseFailure))
  {
    FenceFoundIff(Trim(text));
  }

  /** For an already trimmed reply with a fence match m, the parse input
      is the slice the capture group spans. */
  lemma TrimmedFencedParseInput(text: JsString, m: FenceSpan)
    requires text != [] && Trim(text) == text && FindFence(text) == Some(m)
    ensures ParseInput(Some(text)) == Some(text[m.payloadStart..m.payloadEnd])
  {
  }
}

=== FILE: fence.dfy ===
/** The code-fence search of extractJsonFromResponse: the first match of
    /```json\s*([\s\S]*?)\s*```/ in the trimmed reply and its capture group.
    The regular expression has no flags, so it runs over code units, `\s` is
    the whitespace class of module Text, and `match` returns the first match
    in backtracking order. */
module Fence {

  import opened Wrappers
  import opened Unicode
  import opened Text

  /** "```json" */
  const FenceOpen: JsString := [0x60, 0x60, 0x60, 0x6A, 0x73, 0x6F, 0x6E]

  /** "```" */
  const FenceClose: JsString := [0x60, 0x60, 0x60]

  /** The positions of one way the pattern matches: "```json" at `open`,
      the first `\s*` up to `payloadStart`, the capture group
      [payloadStart, payloadEnd), the second `\s*` up to `close`, and "```"
      at `close`. */
  datatype FenceSpan = FenceSpan(open: nat, payloadStart: nat, payloadEnd: nat, close: nat)

  /** m is a way for the pattern to match t. */
  predicate IsMatch(t: JsString, m: FenceSpan) {
    && OccursAt(t, FenceOpen, m.open)
    && AllWhite(t, m.open + |FenceOpen|, m.payloadStart)
    && m.payloadStart <= m.payloadEnd
    && AllWhite(t, m.payloadEnd, m.close)
    && OccursAt(t, FenceClose, m.close)
  }

  /** The backtracking matcher tries m no later than m': it tries start
      positions left to right, the greedy first `\s*` longest first, the
      lazy group shortest first, and the greedy second `\s*` longest first. */
  predicate TriedNoLater(m: FenceSpan, m': FenceSpan) {
    || m.open < m'.open
    || (m.open == m'.open && m.payloadStart > m'.payloadStart)
    || (m.open == m'.open && m.payloadStart == m'.payloadStart && m.payloadEnd < m'.payloadEnd)
    || (m.open == m'.open && m.payloadStart == m'.payloadStart && m.payloadEnd == m'.payloadEnd
        && m.close >= m'.close)
  }

  /** The match `String.prototype.match` reports, found by index arithmetic:
      the first "```json", the whitespace after it, the first "```" after
      that, and the whitespace run before that "```". */
  function FindFence(t: JsString): (r: Option<FenceSpan>)
    ensures r.Some? ==> IsMatch(t, r.value)
    ensures r.Some? ==> forall j :: 0 <= j < r.value.open ==> !OccursAt(t, FenceOpen, j)
    ensures r.Some? ==> forall j :: r.value.open + |FenceOpen| <= j < r.value.close ==> !OccursAt(t, FenceClose, j)
    ensures r.Some? && r.value.payloadStart < |t| ==> !IsWhite(t[r.value.payloadStart])
    ensures r.Some? && r.value.payloadStart < r.value.payloadEnd ==> !IsWhite(t[r.value.payloadEnd - 1])
  {
    match Find(t, FenceOpen, 0)
    case None => None
    case Some(i) =>
      var w := SkipWhite(t, i + |FenceOpen|);
      match Find(t, FenceClose, w)
      case None => None
      case Some(p) =>
        assert forall j :: i + |FenceOpen| <= j < w ==> !OccursAt(t, FenceClose, j) by {
          forall j | i + |FenceOpen| <= j < w ensures !OccursAt(t, FenceClose, j) {
            NoCloseInRun(t, i + |FenceOpen|, w, j);
          }
        }
        Some(FenceSpan(i, w, RunStart(t, w, p), p))
  }

  /** The capture group `jsonMatch[1]`, or None when there is no match. */
  function Payload(t: JsString): (r: Option<JsString>)
    ensures r.Some? <==> FindFence(t).Some?
  {
    match FindFence(t)
    case Some(m) => Some(t[m.payloadStart..m.payloadEnd])
    case None => None
  }

  /** A "```" never starts inside a whitespace run. */
  lemma CloseNotInRun(t: JsString, lo: int, hi: int, j: int)
    requires AllWhite(t, lo, hi) && OccursAt(t, FenceClose, j)
    ensures j < lo || hi <= j
  {
    assert t[j..j + 3][0] == t[j];
  }

  /** No "```" starts at a position inside a whitespace run. */
  lemma NoCloseInRun(t: JsString, lo: int, hi: int, j: int)
    requires AllWhite(t, lo, hi) && lo <= j < hi
    ensures !OccursAt(t, FenceClose, j)
  {
    if j + 3 <= |t| {
      assert t[j..j + 3][0] == t[j];
    }
  }

  /** A whitespace run starting at or before a non-whitespace code unit
      ends at or before it. */
  lemma NotInRun(t: JsString, lo: int, hi: int, k: int)
    requires AllWhite(t, lo, hi) && 0 <= k < |t| && !IsWhite(t[k])
    ensures k < lo || hi <= k
  {
  }

  /** FindFence reports exactly the match a backtracking regular-expression
      engine reports: it is a match, no match is tried before it, and when
      it reports none there is none. */
  lemma FindFenceIsFirstMatch(t: JsString)
    ensures FindFence(t).Some? ==>
              forall m :: IsMatch(t, m) ==> TriedNoLater(FindFence(t).value, m)
    ensures FindFence(t).None? ==> forall m :: !IsMatch(t, m)
  {
    forall m | IsMatch(t, m)
      ensures FindFence(t).Some? && TriedNoLater(FindFence(t).value, m)
    {
      FoundNoLaterThan(t, m);
    }
  }

  lemma FoundNoLaterThan(t: JsString, m: FenceSpan)
    requires IsMatch(t, m)
    ensures FindFence(t).Some? && TriedNoLater(FindFence(t).value, m)
  {
    assert Find(t, FenceOpen, 0).Some?;
    var i := Find(t, FenceOpen, 0).value;
    assert i <= m.open;
    var w := SkipWhite(t, i + |FenceOpen|);
    if m.open == i {
      if w < |t| {
        NotInRun(t, i + |FenceOpen|, m.payloadStart, w);
      }
      CloseNotInRun(t, i + |FenceOpen|, w, m.close);
      assert Find(t, FenceClose, w).Some?;
      var p := Find(t, FenceClose, w).value;
      var c := RunStart(t, w, p);
      assert FindFence(t) == Some(FenceSpan(i, w, c, p));
      assert p <= m.close;
      if m.payloadStart == w {
        if w < c {
          NotInRun(t, m.payloadEnd, m.close, c - 1);
        }
        if m.payloadEnd == c {
          CloseNotInRun(t, c, m.close, p);
        }
      }
    } else {
      CloseNotInRun(t, i + |FenceOpen|, w, m.close);
    }
  }

  /** Some "```json" occurrence has a later "```". */
  ghost predicate HasFence(t: JsString) {
    exists i, p :: OccursAt(t, FenceOpen, i) && i + |FenceOpen| <= p && OccursAt(t, FenceClose, p)
  }

  /** The pattern matches exactly when some "```json" has a "```" after it. */
  lemma FenceFoundIff(t: JsString)
    ensures FindFence(t).Some? <==> HasFence(t)
  {
    if HasFence(t) {
      var i, p :| OccursAt(t, FenceOpen, i) && i + |FenceOpen| <= p && OccursAt(t, FenceClose, p);
      var m := FenceSpan(i, i + |FenceOpen|, p, p);
      assert IsMatch(t, m);
      FindFenceIsFirstMatch(t);
    }
    if FindFence(t).Some? {
      var m := FindFence(t).value;
      assert OccursAt(t, FenceOpen, m.open) && m.open + |FenceOpen| <= m.close && OccursAt(t, FenceClose, m.close);
    }
  }

  /** The capture group neither starts nor ends with whitespace, contains no
      "```", is cut from the first "```json", and is followed only by
      whitespace up to the first "```" after that opening. */
  lemma PayloadShape(t: JsString)
    requires FindFence(t).Some?
    ensures var m := FindFence(t).value;
            var payload := Payload(t).value;
            && payload == t[m.payloadStart..m.payloadEnd]
            && (|payload| > 0 ==> !IsWhite(payload[0]) && !IsWhite(payload[|payload| - 1]))
            && (forall j :: !OccursAt(payload, FenceClose, j))
            && (forall j :: 0 <= j < m.open ==> !OccursAt(t, FenceOpen, j))
            && AllWhite(t, m.open + |FenceOpen|, m.payloadStart)
            && AllWhite(t, m.payloadEnd, m.close)
            && OccursAt(t, FenceClose, m.close)
            && (forall j :: m.open + |FenceOpen| <= j < m.close ==> !OccursAt(t, FenceClose, j))
  {
    var m := FindFence(t).value;
    var payload := t[m.payloadStart..m.payloadEnd];
    forall j
      ensures !OccursAt(payload, FenceClose, j)
    {
      if 0 <= j && j + 3 <= |payload| {
        assert payload[j..j + 3] == t[m.payloadStart + j..m.payloadStart + j + 3];
        assert !OccursAt(t, FenceClose, m.payloadStart + j);
      }
    }
  }
}

=== FILE: json.dfy ===
/** JavaScript values as `JSON.parse` produces them and `res.json`
    serialises them, and the `{error: ...}` objects the relay returns on
    every failure path. */
module JsonValues {

  import opened Wrappers
  import opened Unicode

  /** A JSON value. Object members keep their insertion order. */
  datatype Json =
    | JNull
    | JBool(b: bool)
    | JNumber(n: real)
    | JString(s: JsString)
    | JArray(items: seq<Json>)
    | JObject(members: seq<(JsString, Json)>)

  /** `JSON.parse`: the parsed value, or None where it throws a SyntaxError. */
  type Parser = JsString -> Option<Json>

  /** Property lookup: the value of the first member named `key`. */
  function Field(v: Json, key: JsString): (r: Option<Json>)
    ensures r.Some? ==> v.JObject? && exists i :: 0 <= i < |v.members| && v.members[i] == (key, r.value)
    ensures r.None? ==> !v.JObject? || forall i :: 0 <= i < |v.members| ==> v.members[i].0 != key
    decreases if v.JObject? then |v.members| else 0
  {
    match v
    case JObject(members) =>
      if members == [] then None
      else if members[0].0 == key then Some(members[0].1)
      else
        var r := Field(JObject(members[1..]), key);
        assert forall i :: 1 <= i < |members| ==> members[i] == members[1..][i - 1];
        r
    case _ => None
  }

  const ErrorKey: JsString := Bmp("error")

  /** `{ error: message }` */
  function ErrorObject(message: JsString): (r: Json)
    ensures Field(r, ErrorKey) == Some(JString(message))
  {
    JObject([(ErrorKey, JString(message))])
  }

  /** Looking up each key of a three-member object with distinct keys. */
  lemma FieldsOfThree(k1: JsString, v1: Json, k2: JsString, v2: Json, k3: JsString, v3: Json)
    requires k1 != k2 && k1 != k3 && k2 != k3
    ensures var o := JObject([(k1, v1), (k2, v2), (k3, v3)]);
            Field(o, k1) == Some(v1) && Field(o, k2) == Some(v2) && Field(o, k3) == Some(v3)
  {
    var o1, o2, o3 := JObject([(k1, v1), (k2, v2), (k3, v3)]), JObject([(k2, v2), (k3, v3)]), JObject([(k3, v3)]);
    assert o1.members[1..] == o2.members;
    assert o2.members[1..] == o3.members;
    assert Field(o2, k3) == Field(o3, k3) == Some(v3);
    assert Field(o1, k3) == Field(o2, k3);
    assert Field(o1, k2) == Field(o2, k2) == Some(v2);
  }
}

=== FILE: mission.dfy ===
/** The decision logic of index.js around the two string routines: how
    getMissionDetails turns the upstream outcome into mission details, and
    how the GET /mission handler validates its query and assembles the
    response. The upstream call and `JSON.parse` are oracles passed in. */
module Mission {

  import opened Wrappers
  import opened Unicode
  import opened JsonValues
  import opened Uri
  import opened Extractor

  const UnexpectedFormat: JsString := Bmp("Unexpected AI response format.")

  const GenerationFailed: JsString := Bmp("Failed to generate mission details.")

  const MissingParameters: JsString :=
    Bmp("Missing required parameters: ") + Bmp("description or total_points.")

  /** `choices[0]?.message?.content` of a reply whose `choices` is truthy:
      Missing when it is undefined (an empty `choices`, no `message`, no
      `content`) or another falsy value, Text when it is a non-empty or
      empty string, NonString when it is a truthy value of another type. */
  datatype Content = Missing | Text(text: JsString) | NonString

  /** `response.data`: NoChoices when it or its `choices` is falsy. */
  datatype Reply = NoChoices | WithChoices(first: Content)

  /** What the awaited POST produced: it threw (network error, non-2xx
      status), or it returned a reply. */
  datatype Upstream = Threw | Returned(reply: Reply)

  /** getMissionDetails after the POST. A truthy non-string content makes
      `aiContent.trim()` throw inside the same try block, so it surfaces as
      the generation failure too. */
  function MissionDetails(outcome: Upstream, parse: Parser): (r: Json)
    ensures outcome.Threw? ==> r == ErrorObject(GenerationFailed)
    ensures outcome == Returned(NoChoices) ==> r == ErrorObject(UnexpectedFormat)
    ensures outcome == Returned(WithChoices(Missing)) ==> r == ErrorObject(EmptyResponse)
    ensures outcome == Returned(WithChoices(Text([]))) ==> r == ErrorObject(EmptyResponse)
    ensures outcome == Returned(WithChoices(NonString)) ==> r == ErrorObject(GenerationFailed)
    ensures outcome.Returned? && outcome.reply.WithChoices? && outcome.reply.first.Text? ==>
              r == ExtractJson(Some(outcome.reply.first.text), parse)
  {
    match outcome
    case Threw => ErrorObject(GenerationFailed)
    case Returned(NoChoices) => ErrorObject(UnexpectedFormat)
    case Returned(WithChoices(Missing)) => ExtractJson(None, parse)
    case Returned(WithChoices(Text(text))) => ExtractJson(Some(text), parse)
    case Returned(WithChoices(NonString)) => ErrorObject(GenerationFailed)
  }

  /** The arguments of one upstream call: the decoded mission and the
      points exactly as the query gave them. */
  datatype UpstreamRequest = UpstreamRequest(mission: JsString, totalPoints: JsString)

  datatype HttpResponse = HttpResponse(status: int, body: Json)

  /** What handling one request did: the upstream calls it made, in order,
      and the response it sent. */
  datatype Exchange = Exchange(upstreamCalls: seq<UpstreamRequest>, response: HttpResponse)

  /** A query parameter is truthy: present and not the empty string. */
  predicate Present(param: Option<JsString>) {
    param.Some? && param.value != []
  }

  const OriginalMissionKey: JsString := Bmp("original_mission")

  const TotalPointsKey: JsString := Bmp("total_points")

  const DetailsKey: JsString := Bmp("ai_generated_details")

  /** The GET /mission handler, given the `description` and `total_points`
      query parameters, the upstream service and `JSON.parse`. */
  function HandleMission(description: Option<JsString>, totalPoints: Option<JsString>,
                         upstream: UpstreamRequest -> Upstream, parse: Parser): (x: Exchange)
    ensures x.response.status == 400 <==> !Present(description) || !Present(totalPoints)
    ensures x.response.status == 400 ==>
              x.response.body == ErrorObject(MissingParameters) && x.upstreamCalls == []
    ensures x.response.status != 400 ==> x.response.status == 200 && |x.upstreamCalls| == 1
  {
    if !Present(description) || !Present(totalPoints) then
      Exchange([], HttpResponse(400, ErrorObject(MissingParameters)))
    else
      var decoded := DecodeMission(description.value);
      var request := UpstreamRequest(decoded, totalPoints.value);
      var details := MissionDetails(upstream(request), parse);
      Exchange([request], HttpResponse(200, JObject([
        (OriginalMissionKey, JString(decoded)),
        (TotalPointsKey, JString(totalPoints.value)),
        (DetailsKey, details)])))
  }

  /** An accepted request calls the upstream once, with the decoded mission
      and the points verbatim, and answers 200 with the decoded mission, the
      points verbatim and the details as they came, error object or not. */
  lemma AcceptedRequestShape(description: JsString, totalPoints: JsString,
                             upstream: UpstreamRequest -> Upstream, parse: Parser)
    requires description != [] && totalPoints != []
    ensures var x := HandleMission(Some(description), Some(totalPoints), upstream, parse);
            var request := UpstreamRequest(DecodeMission(description), totalPoints);
            && x.upstreamCalls == [request]
            && x.response.status == 200
            && x.response.body.JObject? && |x.response.body.members| == 3
            && Field(x.response.body, OriginalMissionKey) == Some(JString(DecodeMission(description)))
            && Field(x.response.body, TotalPointsKey) == Some(JString(totalPoints))
            && Field(x.response.body, DetailsKey) == Some(MissionDetails(upstream(request), parse))
  {
    assert OriginalMissionKey != TotalPointsKey by { assert OriginalMissionKey[0] != TotalPointsKey[0]; }
    assert OriginalMissionKey != DetailsKey by { assert OriginalMissionKey[0] != DetailsKey[0]; }
    assert TotalPointsKey != DetailsKey by { assert TotalPointsKey[0] != DetailsKey[0]; }
    var request := UpstreamRequest(DecodeMission(description), totalPoints);
    FieldsOfThree(OriginalMissionKey, JString(DecodeMission(description)),
                  TotalPointsKey, JString(totalPoints),
                  DetailsKey, MissionDetails(upstream(request), parse));
  }

  /** A failing upstream still yields status 200, with the generation
      failure as the details. */
  lemma UpstreamFailureStill200(description: JsString, totalPoints: JsString,
                                upstream: UpstreamRequest -> Upstream, parse: Parser)
    requires description != [] && totalPoints != []
    requires forall request :: upstream(request) == Threw
    ensures var x := HandleMission(Some(description), Some(totalPoints), upstream, parse);
            && x.response.status == 200
            && Field(x.response.body, DetailsKey) == Some(ErrorObject(GenerationFailed))
  {
    AcceptedRequestShape(description, totalPoints, upstream, parse);
  }

  /** The five error messages are pairwise distinct, so a caller can tell
      every failure path apart. */
  lemma ErrorMessagesDistinct()
    ensures EmptyResponse != ParseFailure && EmptyResponse != UnexpectedFormat
    ensures EmptyResponse != GenerationFailed && EmptyResponse != MissingParameters
    ensures ParseFailure != UnexpectedFormat && ParseFailure != GenerationFailed
    ensures ParseFailure != MissingParameters
    ensures UnexpectedFormat != GenerationFailed && UnexpectedFormat != MissingParameters
    ensures GenerationFailed != MissingParameters
  {
  }
}

=== FILE: scenarios.dfy ===
/** Example requests and replies, worked through the model.
    Strings are written as code-unit displays with their text alongside. */
module Scenarios {

  import opened Wrappers
  import opened Unicode
  import opened Text
  import opened Fence
  import opened Uri
  import opened JsonValues
  import opened Extractor
  import opened Mission

  /** "Write" */
  const Write: JsString := [0x57, 0x72, 0x69, 0x74, 0x65]

  /** "tests" */
  const Tests: JsString := [0x74, 0x65, 0x73, 0x74, 0x73]

  /** "Write%20tests" */
  const WriteTestsEncoded: JsString := Write + ([Percent, 0x32, 0x30] + Tests)

  /** "Write tests" */
  const WriteTests: JsString := Write + ([0x20] + Tests)

  /** "100" */
  const Hundred: JsString := [0x31, 0x30, 0x30]

  /** "```json\n{"a":1}\n```" */
  const FencedReply: JsString :=
    [0x60, 0x60, 0x60, 0x6A, 0x73, 0x6F, 0x6E, 0x0A,
     0x7B, 0x22, 0x61, 0x22, 0x3A, 0x31, 0x7D, 0x0A, 0x60, 0x60, 0x60]

  /** {"a":1} */
  const ObjectText: JsString := [0x7B, 0x22, 0x61, 0x22, 0x3A, 0x31, 0x7D]

  /** "%20" between two runs without '%' decodes to a space. */
  lemma DecodeSpaceBetween(a: JsString, b: JsString)
    requires forall k :: 0 <= k < |a| ==> a[k] != Percent
    requires forall k :: 0 <= k < |b| ==> b[k] != Percent
    ensures Decode(a + ([Percent, 0x32, 0x30] + b)) == Some(a + ([0x20] + b))
  {
    var escape: JsString := [Percent, 0x32, 0x30];
    DecodeWithoutPercent(b);
    assert (escape + b)[3..] == b;
    assert Decode(escape + b) == Some([0x20] + b);
    DecodeCopiesPlainPrefix(a, escape + b);
  }

  /** A description that still holds an escape after express's own
      decoding (the request description=Write%2520tests) is decoded once
      more: "Write%20tests" becomes "Write tests". */
  lemma DecodeWriteTests()
    ensures DecodeMission(WriteTestsEncoded) == WriteTests
  {
    DecodeSpaceBetween(Write, Tests);
  }

  /** "%E2%82%AC" decodes to the euro sign U+20AC. */
  lemma DecodeEuroSign()
    ensures Decode([Percent, 0x45, 0x32, Percent, 0x38, 0x32, Percent, 0x41, 0x43]) == Some([0x20AC])
  {
    assert Utf8Encode(0x20AC) == [0xE2, 0x82, 0xAC];
    DecodeWithoutPercent([]);
    DecodeEscapedCodePoint(0x20AC, []);
    assert Utf16Encode(0x20AC) + [] == [0x20AC];
    assert EscapeOctets([0xE2, 0x82, 0xAC]) + [] == [Percent, 0x45, 0x32, Percent, 0x38, 0x32, Percent, 0x41, 0x43];
  }

  /** Lower-case hexadecimal digits are accepted: "%c3%a9" decodes to
      U+00E9, as "%C3%A9" does. */
  lemma DecodeLowerCaseEscapes()
    ensures Decode([Percent, 0x63, 0x33, Percent, 0x61, 0x39]) == Some([0xE9])
  {
    var s: JsString := [Percent, 0x63, 0x33, Percent, 0x61, 0x39];
    var tail: JsString := [Percent, 0x61, 0x39];
    var cont: seq<Byte> := [0xA9];
    var octets: seq<Byte> := [0xC3, 0xA9];
    assert HexOctet(0x63, 0x33) == Some(0xC3);
    assert HexOctet(tail[1], tail[2]) == Some(0xA9);
    assert LeadingOnes(0xC3) == 2;
    assert s[3..6] == tail;
    var none: seq<Byte> := [];
    assert ParseEscapes(tail[3..], 0) == Some(none);
    assert [0xA9 as Byte] + none == cont;
    assert tail[0] == Percent;
    assert ParseEscapes(tail, 1) == Some(cont);
    assert [0xC3 as Byte] + cont == octets;
    assert Utf8DecodeMulti(octets) == Some(0xE9);
    var empty: JsString := [];
    assert s[6..] == empty;
    assert Decode(empty) == Some(empty);
    assert Utf16Encode(0xE9) + empty == [0xE9];
    assert s[0] == Percent && HexOctet(s[1], s[2]) == Some(0xC3);
    assert s[3..3 * 2] == tail;
  }

  /** Escapes that are not UTF-8 are rejected: a lone continuation octet
      "%80", the overlong "%C0%AF", the surrogate "%ED%A0%80", and the
      truncated "%E4%B8". */
  lemma InvalidUtf8Rejected()
    ensures Decode([Percent, 0x38, 0x30]) == None
    ensures Decode([Percent, 0x43, 0x30, Percent, 0x41, 0x46]) == None
    ensures Decode([Percent, 0x45, 0x44, Percent, 0x41, 0x30, Percent, 0x38, 0x30]) == None
    ensures Decode([Percent, 0x45, 0x34, Percent, 0x42, 0x38]) == None
  {
    assert Utf8Value([0xC0, 0xAF]) == 0x2F;
    var s: JsString := [Percent, 0x45, 0x44, Percent, 0x41, 0x30, Percent, 0x38, 0x30];
    assert s[3..9] == EscapeOctets([0xA0, 0x80]);
    ParseEscapesOfEscaped([0xA0, 0x80]);
    assert Utf8Value([0xED, 0xA0, 0x80]) == 0xD800;
  }

  /** "100%" is not a valid percent-encoding; decodeMission keeps it. */
  lemma TrailingPercentKept()
    ensures DecodeMission([0x31, 0x30, 0x30, Percent]) == [0x31, 0x30, 0x30, Percent]
  {
    var s: JsString := [0x31, 0x30, 0x30, Percent];
    assert s[3] == Percent;
    MalformedEscapeKeepsInput(s);
  }

  lemma FencedReplyTrimmed()
    ensures Trim(FencedReply) == FencedReply
  {
    var t := FencedReply;
    assert SkipWhite(t, 0) == 0;
    assert RunStart(t, 0, |t|) == |t|;
  }

  lemma FencedReplyOpensAtStart()
    ensures Find(FencedReply, FenceOpen, 0) == Some(0)
    ensures SkipWhite(FencedReply, 7) == 8
  {
    var t := FencedReply;
    FindIsFirst(t, FenceOpen, 0, 0);
    assert SkipWhite(t, 8) == 8;
  }

  lemma FencedReplyCloses()
    ensures Find(FencedReply, FenceClose, 8) == Some(16)
    ensures RunStart(FencedReply, 8, 16) == 15
  {
    var t := FencedReply;
    var body := t[8..16];
    assert body == [0x7B, 0x22, 0x61, 0x22, 0x3A, 0x31, 0x7D, 0x0A];
    assert 0x60 !in body;
    forall j | 8 <= j < 16
      ensures !OccursAt(t, FenceClose, j)
    {
      assert t[j] == body[j - 8];
      assert t[j..j + 3][0] == t[j];
    }
    assert t[16..19] == FenceClose;
    FindIsFirst(t, FenceClose, 8, 16);
    assert IsWhite(t[15]) && !IsWhite(t[14]);
    assert RunStart(t, 8, 15) == 15;
  }

  lemma FencedReplyMatch()
    ensures FindFence(FencedReply) == Some(FenceSpan(0, 8, 15, 16))
  {
    FencedReplyOpensAtStart();
    FencedReplyCloses();
  }

  /** The fence is stripped: only {"a":1} is parsed. */
  lemma FencedReplyParsesObject()
    ensures ParseInput(Some(FencedReply)) == Some(ObjectText)
  {
    FencedReplyTrimmed();
    FencedReplyMatch();
    TrimmedFencedParseInput(FencedReply, FenceSpan(0, 8, 15, 16));
    FencedPayloadIsObject();
  }

  lemma FencedPayloadIsObject()
    ensures FencedReply[8..15] == ObjectText
  {
    var t := FencedReply;
    assert t[8..15] == [t[8], t[9], t[10], t[11], t[12], t[13], t[14]];
  }

  /** Without a fence the trimmed reply is parsed whole. */
  lemma UnfencedReplyParsedWhole()
    ensures ParseInput(Some(ObjectText)) == Some(ObjectText)
  {
    var t := ObjectText;
    assert SkipWhite(t, 0) == 0;
    assert RunStart(t, 0, |t|) == |t|;
    forall j | 0 <= j
      ensures !OccursAt(t, FenceOpen, j)
    {
      if j + 7 <= |t| { assert t[j..j + 7][0] == t[j]; }
    }
    assert Trim(t) == t;
    assert FindFence(t) == None;
  }

  /** GET /mission?description=Write%20tests&total_points=100 against an
      upstream that answers with the fenced reply. Express has already
      decoded the query, so the handler receives "Write tests"; decodeMission
      leaves it as it is. The answer is status 200 with that mission, the
      points as given, and whatever JSON.parse makes of {"a":1}. */
  lemma WriteTestsRequest(upstream: UpstreamRequest -> Upstream, parse: Parser)
    requires forall request :: upstream(request) == Returned(WithChoices(Text(FencedReply)))
    ensures var x := HandleMission(Some(WriteTests), Some(Hundred), upstream, parse);
            && x.upstreamCalls == [UpstreamRequest(WriteTests, Hundred)]
            && x.response.status == 200
            && Field(x.response.body, OriginalMissionKey) == Some(JString(WriteTests))
            && Field(x.response.body, TotalPointsKey) == Some(JString(Hundred))
            && Field(x.response.body, DetailsKey) == Some(parse(ObjectText).GetOr(ErrorObject(ParseFailure)))
  {
    WriteTestsHasNoPercent();
    DecodeMissionWithoutPercent(WriteTests);
    FencedReplyParsesObject();
    AcceptedRequestShape(WriteTests, Hundred, upstream, parse);
  }

  lemma WriteTestsHasNoPercent()
    ensures forall k :: 0 <= k < |WriteTests| ==> WriteTests[k] != Percent
  {
    var t := WriteTests;
    assert t == [0x57, 0x72, 0x69, 0x74, 0x65, 0x20, 0x74, 0x65, 0x73, 0x74, 0x73];
    assert Percent !in t;
  }

  /** GET /mission?description=Write%20tests without total_points, and with
      an empty total_points (the description as express hands it over is
      "Write tests"): status 400 with the missing-parameters error,
      and the upstream is never called. */
  lemma MissingTotalPointsRejected(upstream: UpstreamRequest -> Upstream, parse: Parser)
    ensures var x := HandleMission(Some(WriteTests), None, upstream, parse);
            x.response == HttpResponse(400, ErrorObject(MissingParameters)) && x.upstreamCalls == []
    ensures var x := HandleMission(Some(WriteTests), Some([]), upstream, parse);
            x.response == HttpResponse(400, ErrorObject(MissingParameters)) && x.upstreamCalls == []
  {
  }
}

=== FILE: text.dfy ===
/** The string primitives the extractor relies on: the whitespace class
    shared by `String.prototype.trim` and the regular-expression class `\s`
    (WhiteSpace and LineTerminator of ECMA-262, sections 12.2 and 12.3),
    trimming, and searching for a literal. */
module Text {

  import opened Wrappers
  import opened Unicode

  /** WhiteSpace or LineTerminator: TAB, LF, VT, FF, CR, SPACE, NBSP, the
      other Zs characters (U+1680, U+2000..U+200A, U+202F, U+205F, U+3000),
      LINE and PARAGRAPH SEPARATOR, and the byte order mark U+FEFF. */
  predicate IsWhite(u: CodeUnit) {
    || 0x09 <= u <= 0x0D
    || u == 0x20 || u == 0xA0 || u == 0x1680
    || 0x2000 <= u <= 0x200A
    || u == 0x2028 || u == 0x2029 || u == 0x202F || u == 0x205F
    || u == 0x3000 || u == 0xFEFF
  }

  /** s[lo..hi] is a well-formed slice made only of whitespace. */
  predicate AllWhite(s: JsString, lo: int, hi: int) {
    && 0 <= lo <= hi <= |s|
    && forall j :: lo <= j < hi ==> IsWhite(s[j])
  }

  /** The end of the whitespace run starting at `from`: the greedy `\s*`. */
  function SkipWhite(s: JsString, from: nat): (r: nat)
    requires from <= |s|
    ensures AllWhite(s, from, r)
    ensures r < |s| ==> !IsWhite(s[r])
    decreases |s| - from
  {
    if from == |s| || !IsWhite(s[from]) then from else SkipWhite(s, from + 1)
  }

  /** The start of the whitespace run that ends at `hi`, not going below `lo`. */
  function RunStart(s: JsString, lo: nat, hi: nat): (r: nat)
    requires lo <= hi <= |s|
    ensures lo <= r
    ensures AllWhite(s, r, hi)
    ensures r > lo ==> !IsWhite(s[r - 1])
    decreases hi - lo
  {
    if hi == lo || !IsWhite(s[hi - 1]) then hi else RunStart(s, lo, hi - 1)
  }

  /** String.prototype.trim: drops the leading and trailing whitespace. */
  function Trim(s: JsString): (r: JsString)
    ensures |r| <= |s|
    ensures |r| > 0 ==> !IsWhite(r[0]) && !IsWhite(r[|r| - 1])
  {
    var lo := SkipWhite(s, 0);
    s[lo..RunStart(s, lo, |s|)]
  }

  /** The trimmed string is a slice of its input with only whitespace
      around it, and it neither starts nor ends with whitespace: this pins it
      down uniquely. */
  lemma TrimSpec(s: JsString)
    ensures exists lo, hi :: AllWhite(s, 0, lo) && lo <= hi && AllWhite(s, hi, |s|) && Trim(s) == s[lo..hi]
    ensures |Trim(s)| > 0 ==> !IsWhite(Trim(s)[0]) && !IsWhite(Trim(s)[|Trim(s)| - 1])
    ensures |Trim(s)| == 0 <==> AllWhite(s, 0, |s|)
  {
    var lo := SkipWhite(s, 0);
    var hi := RunStart(s, lo, |s|);
    assert AllWhite(s, 0, lo) && AllWhite(s, hi, |s|) && Trim(s) == s[lo..hi];
    if |Trim(s)| == 0 {
      assert lo == hi;
    } else {
      assert !AllWhite(s, 0, |s|) by {
        assert !IsWhite(s[lo]);
      }
    }
  }

  /** `pat` occurs in `s` starting at index i. */
  predicate OccursAt(s: JsString, pat: JsString, i: int) {
    0 <= i && i + |pat| <= |s| && s[i..i + |pat|] == pat
  }

  /** The first occurrence of `pat` at or after `from`, as a left-to-right
      scan finds it. */
  function Find(s: JsString, pat: JsString, from: nat): (r: Option<nat>)
    ensures r.Some? ==> from <= r.value && OccursAt(s, pat, r.value)
    ensures r.Some? ==> forall j :: from <= j < r.value ==> !OccursAt(s, pat, j)
    ensures r.None? ==> forall j :: from <= j ==> !OccursAt(s, pat, j)
    decreases |s| - from
  {
    if from + |pat| > |s| then None
    else if s[from..from + |pat|] == pat then Some(from)
    else Find(s, pat, from + 1)
  }

  /** Find returns exactly the first occurrence at or after `from`. */
  lemma FindIsFirst(s: JsString, pat: JsString, from: nat, k: nat)
    requires from <= k && OccursAt(s, pat, k)
    requires forall j :: from <= j < k ==> !OccursAt(s, pat, j)
    ensures Find(s, pat, from) == Some(k)
  {
  }
}

=== FILE: unicode.dfy ===
/** Code units, code points and the two encodings the model needs: UTF-16,
    which is how a JavaScript string stores text, and UTF-8 (section 3 of
    RFC 3629), which is what percent-escapes carry. */
module Unicode {

  import opened Wrappers

  /** One UTF-16 code unit: the element type of a JavaScript string. */
  type CodeUnit = u: int | 0 <= u < 0x1_0000

  /** A JavaScript string value, as its sequence of code units. Lone
      surrogates are allowed, as they are in JavaScript. */
  type JsString = seq<CodeUnit>

  /** One octet. */
  type Byte = b: int | 0 <= b < 0x100

  predicate IsHighSurrogate(u: int) { 0xD800 <= u < 0xDC00 }

  predicate IsLowSurrogate(u: int) { 0xDC00 <= u < 0xE000 }

  predicate IsSurrogate(u: int) { 0xD800 <= u < 0xE000 }

  /** A Unicode scalar value: a code point that is not a surrogate. */
  predicate IsScalarValue(cp: int) {
    0 <= cp < 0x11_0000 && !IsSurrogate(cp)
  }

  /** UTF16EncodeCodePoint: one code unit below 0x10000, a surrogate pair above. */
  function Utf16Encode(cp: int): (r: JsString)
    requires IsScalarValue(cp)
    ensures 1 <= |r| <= 2
    ensures |r| == 1 <==> cp < 0x1_0000
    ensures |r| == 1 ==> r[0] == cp
    ensures |r| == 2 ==> IsHighSurrogate(r[0]) && IsLowSurrogate(r[1])
                         && SurrogatePairValue(r[0], r[1]) == cp
  {
    if cp < 0x1_0000 then [cp]
    else
      var v := cp - 0x1_0000;
      [0xD800 + v / 0x400, 0xDC00 + v % 0x400]
  }

  /** The code point a high/low surrogate pair stands for. */
  function SurrogatePairValue(hi: int, lo: int): (cp: int)
    requires IsHighSurrogate(hi) && IsLowSurrogate(lo)
    ensures 0x1_0000 <= cp < 0x11_0000
  {
    (hi - 0xD800) * 0x400 + (lo - 0xDC00) + 0x1_0000
  }

  /** The JavaScript string a Dafny string literal denotes, for literals
      within the Basic Multilingual Plane: one code unit per character. */
  function Bmp(s: string): (r: JsString)
    requires forall i :: 0 <= i < |s| ==> s[i] as int < 0x1_0000
    ensures |r| == |s|
    ensures forall i :: 0 <= i < |s| ==> r[i] == s[i] as int
  {
    seq(|s|, i requires 0 <= i < |s| => s[i] as int)
  }

  /** The number of leading one bits of an octet. */
  function LeadingOnes(b: Byte): (n: nat)
    ensures n <= 8
  {
    if b < 0x80 then 0
    else if b < 0xC0 then 1
    else if b < 0xE0 then 2
    else if b < 0xF0 then 3
    else if b < 0xF8 then 4
    else if b < 0xFC then 5
    else if b < 0xFE then 6
    else if b < 0xFF then 7
    else 8
  }

  /** A UTF-8 continuation octet, 10xxxxxx. */
  predicate IsContinuation(b: int) { 0x80 <= b < 0xC0 }

  /** The UTF-8 encoding of a scalar value (section 3 of RFC 3629). */
  function Utf8Encode(cp: int): (r: seq<Byte>)
    requires IsScalarValue(cp)
    ensures 1 <= |r| <= 4
    ensures |r| == 1 <==> cp < 0x80
    ensures |r| == 2 <==> 0x80 <= cp < 0x800
    ensures |r| == 3 <==> 0x800 <= cp < 0x1_0000
    ensures |r| == 4 <==> 0x1_0000 <= cp
    ensures |r| == 1 ==> LeadingOnes(r[0]) == 0
    ensures |r| > 1 ==> LeadingOnes(r[0]) == |r|
    ensures forall i :: 1 <= i < |r| ==> IsContinuation(r[i])
  {
    if cp < 0x80 then [cp]
    else if cp < 0x800 then [0xC0 + cp / 64, 0x80 + cp % 64]
    else if cp < 0x1_0000 then
      [0xE0 + cp / 4096, 0x80 + (cp / 64) % 64, 0x80 + cp % 64]
    else
      [0xF0 + cp / 262144, 0x80 + (cp / 4096) % 64, 0x80 + (cp / 64) % 64, 0x80 + cp % 64]
  }

  /** Decodes a multi-octet UTF-8 sequence whose first octet announces its
      length. None when a continuation octet is malformed, when the encoding
      is overlong, or when the value is a surrogate or above 0x10FFFF: the
      octets must be a valid UTF-8 encoding per section 3 of RFC 3629. */
  function Utf8DecodeMulti(octets: seq<Byte>): (r: Option<int>)
    requires 2 <= |octets| <= 4 && LeadingOnes(octets[0]) == |octets|
    ensures r.Some? ==> IsScalarValue(r.value) && Utf8Encode(r.value) == octets
  {
    var n := |octets|;
    if !(IsContinuation(octets[1]) && (n < 3 || IsContinuation(octets[2])) && (n < 4 || IsContinuation(octets[3])))
    then None
    else
      var v := Utf8Value(octets);
      if v < Utf8Lowest(n) || v >= 0x11_0000 || IsSurrogate(v) then None
      else
        Utf8EncodeOfDecoded(octets);
        Some(v)
  }

  /** The value bits of a multi-octet sequence, lead octet first. */
  function Utf8Value(octets: seq<Byte>): int
    requires 2 <= |octets| <= 4
  {
    var n := |octets|;
    var b0: int, b1: int := octets[0], octets[1];
    if n == 2 then (b0 - 0xC0) * 64 + (b1 - 0x80)
    else
      var b2: int := octets[2];
      if n == 3 then (b0 - 0xE0) * 4096 + (b1 - 0x80) * 64 + (b2 - 0x80)
      else
        var b3: int := octets[3];
        (b0 - 0xF0) * 262144 + (b1 - 0x80) * 4096 + (b2 - 0x80) * 64 + (b3 - 0x80)
  }

  /** The least code point that needs n octets: anything smaller written in
      n octets is an overlong encoding. */
  function Utf8Lowest(n: int): int {
    if n == 2 then 0x80 else if n == 3 then 0x800 else 0x1_0000
  }

  /** Division facts for a number written in base d. */
  lemma DivModUnique(q: int, r: int, d: int)
    requires d > 0 && 0 <= r < d
    ensures (q * d + r) / d == q
    ensures (q * d + r) % d == r
  {
    var x := q * d + r;
    var q', r' := x / d, x % d;
    assert (q' - q) * d == r - r';
    if q' > q {
      MulMonotone(q' - q, d);
    } else if q' < q {
      MulMonotone(q - q', d);
    }
  }

  lemma MulMonotone(k: int, d: int)
    requires k >= 1 && d > 0
    ensures k * d >= d
  {
  }

  lemma DivDiv64(x: nat)
    ensures x / 4096 == (x / 64) / 64
    ensures x / 262144 == (x / 4096) / 64
  {
    var q, r := x / 64, x % 64;
    var q2, r2 := q / 64, q % 64;
    assert x == q2 * 4096 + (r2 * 64 + r);
    DivModUnique(q2, r2 * 64 + r, 4096);
    var q3, r3 := q2 / 64, q2 % 64;
    assert x == q3 * 262144 + (r3 * 4096 + r2 * 64 + r);
    DivModUnique(q3, r3 * 4096 + r2 * 64 + r, 262144);
  }

  lemma Utf8EncodeOfDecoded(octets: seq<Byte>)
    requires 2 <= |octets| <= 4 && LeadingOnes(octets[0]) == |octets|
    requires forall i :: 1 <= i < |octets| ==> IsContinuation(octets[i])
    requires Utf8Lowest(|octets|) <= Utf8Value(octets) && IsScalarValue(Utf8Value(octets))
    ensures Utf8Encode(Utf8Value(octets)) == octets
  {
    var v := Utf8Value(octets);
    var b0: int, b1: int := octets[0], octets[1];
    if |octets| == 2 {
      EncodeTwo(v, b0 - 0xC0, b1 - 0x80);
    } else if |octets| == 3 {
      var b2: int := octets[2];
      EncodeThree(v, b0 - 0xE0, b1 - 0x80, b2 - 0x80);
    } else {
      var b2: int, b3: int := octets[2], octets[3];
      EncodeFour(v, b0 - 0xF0, b1 - 0x80, b2 - 0x80, b3 - 0x80);
    }
  }

  lemma EncodeTwo(v: int, a: int, b: int)
    requires 0 <= a < 32 && 0 <= b < 64 && v == a * 64 + b && 0x80 <= v
    ensures IsScalarValue(v) && Utf8Encode(v) == [0xC0 + a, 0x80 + b]
  {
    DivModUnique(a, b, 64);
  }

  lemma EncodeThree(v: int, a: int, b: int, c: int)
    requires 0 <= a < 16 && 0 <= b < 64 && 0 <= c < 64 && v == a * 4096 + b * 64 + c
    requires 0x800 <= v && IsScalarValue(v)
    ensures Utf8Encode(v) == [0xE0 + a, 0x80 + b, 0x80 + c]
  {
    assert v == (a * 64 + b) * 64 + c;
    DivModUnique(a * 64 + b, c, 64);
    DivModUnique(a, b, 64);
    DivDiv64(v);
    assert v / 64 == a * 64 + b;
    assert (v / 64) % 64 == b;
    assert v / 4096 == a;
  }

  lemma EncodeFour(v: int, a: int, b: int, c: int, d: int)
    requires 0 <= a < 8 && 0 <= b < 64 && 0 <= c < 64 && 0 <= d < 64
    requires v == a * 262144 + b * 4096 + c * 64 + d
    requires 0x1_0000 <= v && IsScalarValue(v)
    ensures Utf8Encode(v) == [0xF0 + a, 0x80 + b, 0x80 + c, 0x80 + d]
  {
    assert v == (a * 4096 + b * 64 + c) * 64 + d;
    DivModUnique(a * 4096 + b * 64 + c, d, 64);
    assert a * 4096 + b * 64 + c == (a * 64 + b) * 64 + c;
    DivModUnique(a * 64 + b, c, 64);
    DivModUnique(a, b, 64);
    DivDiv64(v);
    assert v / 64 == a * 4096 + b * 64 + c;
    assert v / 4096 == a * 64 + b;
    assert v / 262144 == a;
  }

  /** Every multi-octet UTF-8 encoding decodes back to its code point: with
      the ensures of Utf8DecodeMulti, decoding accepts exactly the valid
      encodings. */
  lemma Utf8RoundTrip(cp: int)
    requires IsScalarValue(cp) && cp >= 0x80
    ensures Utf8DecodeMulti(Utf8Encode(cp)) == Some(cp)
  {
    var o := Utf8Encode(cp);
    var q, r := cp / 64, cp % 64;
    DivDiv64(cp);
    if |o| == 3 {
      assert cp == (q / 64) * 4096 + (q % 64) * 64 + r;
    } else if |o| == 4 {
      var q2 := cp / 4096;
      assert q2 == q / 64;
      assert cp == (q2 / 64) * 262144 + (q2 % 64) * 4096 + (q % 64) * 64 + r;
    }
  }
}

=== FILE: uri.dfy ===
/** `decodeURIComponent` (the Decode operation of section 19.2.6 of
    ECMA-262 with an empty reserved set), its inverse `encodeURIComponent`,
    and `decodeMission` of index.js, which falls back to its input whenever
    decoding throws a URIError. Percent-encoding follows section 2.1 of
    RFC 3986; the escaped octets must be UTF-8 per section 3 of RFC 3629. */
module Uri {

  import opened Wrappers
  import opened Unicode

  /** '%' */
  const Percent: CodeUnit := 0x25

  /** The value of a hexadecimal digit, either case: a lower-case letter
      means what its upper-case form means. */
  function HexValue(u: CodeUnit): (r: Option<nat>)
    ensures r.Some? ==> r.value < 16
    ensures 0x61 <= u <= 0x66 ==> r == HexValue(u - 0x20)
  {
    if 0x30 <= u <= 0x39 then Some(u - 0x30)
    else if 0x41 <= u <= 0x46 then Some(u - 0x37)
    else if 0x61 <= u <= 0x66 then Some(u - 0x57)
    else None
  }

  predicate IsHexDigit(u: CodeUnit) {
    HexValue(u).Some?
  }

  /** ParseHexOctet: the octet written by two hexadecimal digits. */
  function HexOctet(hi: CodeUnit, lo: CodeUnit): (r: Option<Byte>)
    ensures r.Some? <==> IsHexDigit(hi) && IsHexDigit(lo)
    ensures r.Some? ==> r.value / 16 == HexValue(hi).value && r.value % 16 == HexValue(lo).value
  {
    var h :- HexValue(hi);
    var l :- HexValue(lo);
    Some(h * 16 + l)
  }

  /** Reads `count` escapes "%HH" that fill all of `s`: the continuation
      octets of a multi-octet sequence. */
  function ParseEscapes(s: JsString, count: nat): (r: Option<seq<Byte>>)
    requires |s| == 3 * count
    ensures r.Some? ==> |r.value| == count
  {
    if count == 0 then Some([])
    else if s[0] != Percent then None
    else
      var b :- HexOctet(s[1], s[2]);
      var rest :- ParseEscapes(s[3..], count - 1);
      Some([b] + rest)
  }

  /** decodeURIComponent. None stands for the URIError it throws: a '%' not
      followed by two hexadecimal digits, a first octet with one or more
      than four leading ones, too few or malformed continuation escapes, or
      octets that are not a valid UTF-8 encoding. Code units other than '%'
      are copied, lone surrogates included. Each escape group of 3n code
      units yields at most two, so decoding never lengthens a string. */
  function Decode(s: JsString): (r: Option<JsString>)
    ensures r.Some? ==> |r.value| <= |s|
    decreases |s|
  {
    if s == [] then Some([])
    else if s[0] != Percent then
      var rest :- Decode(s[1..]);
      Some([s[0]] + rest)
    else if |s| < 3 then None
    else
      var b :- HexOctet(s[1], s[2]);
      var n := LeadingOnes(b);
      if n == 0 then
        var rest :- Decode(s[3..]);
        Some([b as CodeUnit] + rest)
      else if n == 1 || n > 4 || |s| < 3 * n then None
      else
        var tail :- ParseEscapes(s[3..3 * n], n - 1);
        var cp :- Utf8DecodeMulti([b] + tail);
        var rest :- Decode(s[3 * n..]);
        Some(Utf16Encode(cp) + rest)
  }

  /** decodeMission (index.js): decodeURIComponent, or the input itself
      when that throws. Total: it never fails. */
  function DecodeMission(description: JsString): (r: JsString)
    ensures Decode(description).Some? ==> r == Decode(description).value
    ensures Decode(description).None? ==> r == description
  {
    match Decode(description)
    case Some(decoded) => decoded
    case None => description
  }

  // ---------------------------------------------------------------------
  // encodeURIComponent, the partner decodeURIComponent inverts

  /** The code units encodeURIComponent leaves alone: letters, digits and
      - _ . ! ~ * ' ( ) */
  predicate IsUnreserved(u: CodeUnit) {
    || 0x41 <= u <= 0x5A || 0x61 <= u <= 0x7A || 0x30 <= u <= 0x39
    || u == 0x2D || u == 0x5F || u == 0x2E || u == 0x21 || u == 0x7E
    || u == 0x2A || u == 0x27 || u == 0x28 || u == 0x29
  }

  /** An upper-case hexadecimal digit. */
  function HexDigit(d: nat): (u: CodeUnit)
    requires d < 16
    ensures HexValue(u) == Some(d)
  {
    if d < 10 then 0x30 + d else 0x37 + d
  }

  /** Each octet as "%HH". */
  function EscapeOctets(octets: seq<Byte>): (r: JsString)
    ensures |r| == 3 * |octets|
  {
    if octets == [] then []
    else [Percent, HexDigit(octets[0] / 16), HexDigit(octets[0] % 16)] + EscapeOctets(octets[1..])
  }

  /** encodeURIComponent. None stands for the URIError thrown on a lone
      surrogate. */
  function Encode(s: JsString): (r: Option<JsString>)
    decreases |s|
  {
    if s == [] then Some([])
    else if IsUnreserved(s[0]) then
      var rest :- Encode(s[1..]);
      Some([s[0]] + rest)
    else if !IsSurrogate(s[0]) then
      var rest :- Encode(s[1..]);
      Some(EscapeOctets(Utf8Encode(s[0])) + rest)
    else if IsHighSurrogate(s[0]) && |s| >= 2 && IsLowSurrogate(s[1]) then
      var rest :- Encode(s[2..]);
      Some(EscapeOctets(Utf8Encode(SurrogatePairValue(s[0], s[1]))) + rest)
    else None
  }

  /** Every '%' is followed by two hexadecimal digits. */
  predicate EscapesWellFormed(s: JsString) {
    forall k :: 0 <= k < |s| && s[k] == Percent ==> k + 2 < |s| && IsHexDigit(s[k + 1]) && IsHexDigit(s[k + 2])
  }

  // ---------------------------------------------------------------------
  // Properties

  /** A string without '%' decodes to itself. */
  lemma {:induction false} DecodeWithoutPercent(s: JsString)
    requires forall k :: 0 <= k < |s| ==> s[k] != Percent
    ensures Decode(s) == Some(s)
  {
    if s != [] {
      DecodeWithoutPercent(s[1..]);
      assert [s[0]] + s[1..] == s;
    }
  }

  /** One step of decoding a code unit other than '%'. */
  lemma DecodePlainHead(s: JsString)
    requires s != [] && s[0] != Percent
    ensures Decode(s) == (if Decode(s[1..]).Some? then Some([s[0]] + Decode(s[1..]).value) else None)
  {
  }

  /** Code units before the first '%' are copied as they are. */
  lemma {:induction false} DecodeCopiesPlainPrefix(a: JsString, b: JsString)
    requires forall k :: 0 <= k < |a| ==> a[k] != Percent
    ensures Decode(a + b) == (if Decode(b).Some? then Some(a + Decode(b).value) else None)
  {
    if a == [] {
      assert a + b == b;
      if Decode(b).Some? {
        assert a + Decode(b).value == Decode(b).value;
      }
    } else {
      assert (a + b)[1..] == a[1..] + b;
      DecodePlainHead(a + b);
      DecodeCopiesPlainPrefix(a[1..], b);
      if Decode(b).Some? {
        assert [a[0]] + (a[1..] + Decode(b).value) == a + Decode(b).value;
      }
    }
  }

  /** Decoding a concatenation whose first part decodes: the decodings are
      concatenated, and the whole fails exactly when the second part does.
      Escape groups never straddle the seam, because the first part
      decodes on its own. */
  lemma {:induction false} DecodeAppend(a: JsString, b: JsString)
    requires Decode(a).Some?
    ensures Decode(a + b) == (if Decode(b).Some? then Some(Decode(a).value + Decode(b).value) else None)
    decreases |a|, 1
  {
    if a == [] {
      assert a + b == b;
      assert Decode(a).value == [];
      if Decode(b).Some? {
        assert Decode(a).value + Decode(b).value == Decode(b).value;
      }
    } else if a[0] != Percent {
      AppendPlain(a, b);
    } else if LeadingOnes(HexOctet(a[1], a[2]).value) == 0 {
      AppendSingle(a, b);
    } else {
      AppendGroup(a, b);
    }
  }

  lemma ConcatAssoc(c: JsString, d: JsString, e: JsString)
    ensures c + (d + e) == (c + d) + e
  {
  }

  lemma AppendPlain(a: JsString, b: JsString)
    requires a != [] && a[0] != Percent && Decode(a).Some?
    ensures Decode(a + b) == (if Decode(b).Some? then Some(Decode(a).value + Decode(b).value) else None)
    decreases |a|, 0
  {
    var s := a + b;
    assert s[0] == a[0] && s[1..] == a[1..] + b;
    var d := Decode(a[1..]).value;
    assert Decode(a).value == [a[0]] + d;
    DecodeAppend(a[1..], b);
    if Decode(b).Some? {
      var e := Decode(b).value;
      assert Decode(s[1..]) == Some(d + e);
      assert Decode(s) == Some([a[0]] + (d + e));
      ConcatAssoc([a[0]], d, e);
    } else {
      assert Decode(s[1..]) == None;
    }
  }

  lemma AppendSingle(a: JsString, b: JsString)
    requires |a| >= 3 && a[0] == Percent && HexOctet(a[1], a[2]).Some?
    requires LeadingOnes(HexOctet(a[1], a[2]).value) == 0 && Decode(a).Some?
    ensures Decode(a + b) == (if Decode(b).Some? then Some(Decode(a).value + Decode(b).value) else None)
    decreases |a|, 0
  {
    var s := a + b;
    assert s[0] == a[0] && s[1] == a[1] && s[2] == a[2] && s[3..] == a[3..] + b;
    var c: JsString := [HexOctet(a[1], a[2]).value as CodeUnit];
    var d := Decode(a[3..]).value;
    assert Decode(a).value == c + d;
    DecodeAppend(a[3..], b);
    if Decode(b).Some? {
      var e := Decode(b).value;
      assert Decode(s[3..]) == Some(d + e);
      assert Decode(s) == Some(c + (d + e));
      ConcatAssoc(c, d, e);
    } else {
      assert Decode(s[3..]) == None;
    }
  }

  lemma AppendGroup(a: JsString, b: JsString)
    requires |a| >= 3 && a[0] == Percent && HexOctet(a[1], a[2]).Some?
    requires LeadingOnes(HexOctet(a[1], a[2]).value) != 0 && Decode(a).Some?
    ensures Decode(a + b) == (if Decode(b).Some? then Some(Decode(a).value + Decode(b).value) else None)
    decreases |a|, 0
  {
    var o := HexOctet(a[1], a[2]).value;
    var n := LeadingOnes(o);
    assert 2 <= n <= 4 && |a| >= 3 * n;
    var s := a + b;
    assert s[0] == a[0] && s[1] == a[1] && s[2] == a[2];
    assert s[3..3 * n] == a[3..3 * n] && s[3 * n..] == a[3 * n..] + b;
    var tail := ParseEscapes(a[3..3 * n], n - 1).value;
    var c := Utf16Encode(Utf8DecodeMulti([o] + tail).value);
    var d := Decode(a[3 * n..]).value;
    assert Decode(a).value == c + d;
    DecodeAppend(a[3 * n..], b);
    if Decode(b).Some? {
      var e := Decode(b).value;
      assert Decode(s[3 * n..]) == Some(d + e);
      assert Decode(s) == Some(c + (d + e));
      ConcatAssoc(c, d, e);
    } else {
      assert Decode(s[3 * n..]) == None;
    }
  }

  /** decodeMission returns a string without '%' unchanged. */
  lemma DecodeMissionWithoutPercent(s: JsString)
    requires forall k :: 0 <= k < |s| ==> s[k] != Percent
    ensures DecodeMission(s) == s
  {
    DecodeWithoutPercent(s);
  }

  /** Successful continuation parsing consumed "%HH" groups. */
  lemma {:induction false} ParseEscapesShape(s: JsString, count: nat)
    requires |s| == 3 * count && ParseEscapes(s, count).Some?
    ensures forall m :: 0 <= m < count ==> s[3 * m] == Percent && IsHexDigit(s[3 * m + 1]) && IsHexDigit(s[3 * m + 2])
  {
    if count > 0 {
      ParseEscapesShape(s[3..], count - 1);
      forall m | 1 <= m < count
        ensures s[3 * m] == Percent && IsHexDigit(s[3 * m + 1]) && IsHexDigit(s[3 * m + 2])
      {
        assert s[3 * m] == s[3..][3 * (m - 1)];
      }
    }
  }

  /** If the first d code units hold only well-formed escapes, the
      malformed one lies further on. */
  lemma MalformedInSuffix(s: JsString, d: nat)
    requires d <= |s| && !EscapesWellFormed(s)
    requires forall j :: 0 <= j < d && s[j] == Percent ==> j + 2 < |s| && IsHexDigit(s[j + 1]) && IsHexDigit(s[j + 2])
    ensures !EscapesWellFormed(s[d..])
  {
    var k :| 0 <= k < |s| && s[k] == Percent && !(k + 2 < |s| && IsHexDigit(s[k + 1]) && IsHexDigit(s[k + 2]));
    assert s[d..][k - d] == s[k];
  }

  /** The escape group a multi-octet sequence occupies is well formed once
      its continuations parsed. */
  lemma EscapeGroupWellFormed(s: JsString, n: nat)
    requires 2 <= n <= 4 && 3 * n <= |s| && s[0] == Percent && IsHexDigit(s[1]) && IsHexDigit(s[2])
    requires ParseEscapes(s[3..3 * n], n - 1).Some?
    ensures forall j :: 0 <= j < 3 * n && s[j] == Percent ==> j + 2 < |s| && IsHexDigit(s[j + 1]) && IsHexDigit(s[j + 2])
  {
    var t := s[3..3 * n];
    ParseEscapesShape(t, n - 1);
    forall j | 3 <= j < 3 * n && s[j] == Percent
      ensures j + 2 < |s| && IsHexDigit(s[j + 1]) && IsHexDigit(s[j + 2])
    {
      var m := (j - 3) / 3;
      assert t[3 * m] == s[3 * m + 3] && t[3 * m + 1] == s[3 * m + 4] && t[3 * m + 2] == s[3 * m + 5];
    }
    assert s[1] != Percent && s[2] != Percent;
  }

  /** A '%' that is not followed by two hexadecimal digits makes
      decodeURIComponent throw, wherever it stands. */
  lemma {:induction false} MalformedEscapeRejected(s: JsString)
    requires !EscapesWellFormed(s)
    ensures Decode(s) == None
  {
    if s[0] != Percent {
      MalformedInSuffix(s, 1);
      MalformedEscapeRejected(s[1..]);
    } else if |s| >= 3 && HexOctet(s[1], s[2]).Some? {
      var b := HexOctet(s[1], s[2]).value;
      var n := LeadingOnes(b);
      if n == 0 {
        assert s[1] != Percent && s[2] != Percent;
        MalformedInSuffix(s, 3);
        MalformedEscapeRejected(s[3..]);
      } else if n != 1 && n <= 4 && |s| >= 3 * n && ParseEscapes(s[3..3 * n], n - 1).Some? {
        EscapeGroupWellFormed(s, n);
        MalformedInSuffix(s, 3 * n);
        MalformedEscapeRejected(s[3 * n..]);
      }
    }
  }

  /** When decoding is rejected because of a malformed escape, decodeMission
      returns exactly its input. */
  lemma MalformedEscapeKeepsInput(s: JsString)
    requires !EscapesWellFormed(s)
    ensures DecodeMission(s) == s
  {
    MalformedEscapeRejected(s);
  }

  lemma DecodeMissionShrinks(s: JsString)
    ensures |DecodeMission(s)| <= |s|
  {
  }

  // ---------------------------------------------------------------------
  // Round trip

  lemma HexOctetOfDigits(b: Byte)
    ensures HexOctet(HexDigit(b / 16), HexDigit(b % 16)) == Some(b)
  {
  }

  lemma {:induction false} ParseEscapesOfEscaped(octets: seq<Byte>)
    ensures ParseEscapes(EscapeOctets(octets), |octets|) == Some(octets)
  {
    if octets != [] {
      var e := EscapeOctets(octets);
      HexOctetOfDigits(octets[0]);
      assert e[3..] == EscapeOctets(octets[1..]);
      ParseEscapesOfEscaped(octets[1..]);
      assert [octets[0]] + octets[1..] == octets;
    }
  }

  /** The escapes of one code point decode to that code point's UTF-16 form. */
  lemma DecodeEscapedCodePoint(cp: int, rest: JsString)
    requires IsScalarValue(cp)
    ensures Decode(EscapeOctets(Utf8Encode(cp)) + rest) ==
            (match Decode(rest) case Some(d) => Some(Utf16Encode(cp) + d) case None => None)
  {
    var o := Utf8Encode(cp);
    var n := |o|;
    var e := EscapeOctets(o);
    var x := e + rest;
    assert e[3..] == EscapeOctets(o[1..]);
    HexOctetOfDigits(o[0]);
    assert x[0] == Percent && x[1] == e[1] && x[2] == e[2];
    if n == 1 {
      assert x[3..] == rest;
    } else {
      assert x[3..3 * n] == EscapeOctets(o[1..]);
      ParseEscapesOfEscaped(o[1..]);
      assert [o[0]] + o[1..] == o;
      Utf8RoundTrip(cp);
      assert x[3 * n..] == rest;
    }
  }

  /** The first escape of a parsed run of escapes, and the rest. */
  lemma ParseEscapesHead(e: JsString, count: nat)
    requires |e| == 3 * count && count >= 1 && ParseEscapes(e, count).Some?
    ensures e[0] == Percent && HexOctet(e[1], e[2]) == Some(ParseEscapes(e, count).value[0])
    ensures ParseEscapes(e[3..], count - 1) == Some(ParseEscapes(e, count).value[1..])
  {
    var r := ParseEscapes(e, count).value;
    var tail := ParseEscapes(e[3..], count - 1).value;
    assert r == [HexOctet(e[1], e[2]).value] + tail;
    assert r[1..] == tail;
  }

  /** A run of escapes that has a code unit other than '%' where one of
      its groups should start is rejected. */
  lemma {:induction false} ParseEscapesNeedsPercent(s: JsString, count: nat, k: nat)
    requires |s| == 3 * count && k < count && s[3 * k] != Percent
    ensures ParseEscapes(s, count) == None
    decreases k
  {
    if k > 0 && s[0] == Percent && HexOctet(s[1], s[2]).Some? {
      assert s[3..][3 * (k - 1)] == s[3 * k];
      ParseEscapesNeedsPercent(s[3..], count - 1, k - 1);
    }
  }

  /** A failure is not repaired by what the decoder read before it. */
  lemma RejectedAfter(a: JsString, b: JsString)
    requires Decode(a).Some? && Decode(b).None?
    ensures Decode(a + b).None?
  {
    DecodeAppend(a, b);
  }

  /** The escapes `e` ("%HH" groups, hexadecimal digits of either case)
      spell the octets `o` of a multi-octet sequence whose lead octet
      announces two to four octets, but the octets encode no scalar value
      (a bad continuation octet, an overlong form, a surrogate, a value
      above U+10FFFF). Wherever the decoder meets such a group, after any
      prefix `a` it decodes, decodeURIComponent throws, whatever follows. */
  lemma InvalidUtf8EscapeRejected(a: JsString, e: JsString, o: seq<Byte>, rest: JsString)
    requires Decode(a).Some?
    requires 2 <= |o| <= 4 && LeadingOnes(o[0]) == |o|
    requires |e| == 3 * |o| && ParseEscapes(e, |o|) == Some(o)
    requires forall cp :: IsScalarValue(cp) ==> Utf8Encode(cp) != o
    ensures Decode(a + (e + rest)) == None
  {
    var n := |o|;
    var x := e + rest;
    ParseEscapesHead(e, n);
    assert x[0] == Percent && x[1] == e[1] && x[2] == e[2];
    assert x[3..3 * n] == e[3..];
    assert [o[0]] + o[1..] == o;
    assert Utf8DecodeMulti(o).None?;
    assert Decode(x) == None;
    RejectedAfter(a, x);
  }

  /** A lead octet announcing n octets whose continuation escapes stop
      early, at the end of the string or at a code unit other than '%',
      makes decodeURIComponent throw wherever the decoder meets it. */
  lemma TruncatedGroupRejected(a: JsString, e: JsString, o: seq<Byte>, rest: JsString)
    requires Decode(a).Some?
    requires 1 <= |o| && 2 <= LeadingOnes(o[0]) <= 4 && |o| < LeadingOnes(o[0])
    requires |e| == 3 * |o| && ParseEscapes(e, |o|) == Some(o)
    requires rest == [] || rest[0] != Percent
    ensures Decode(a + (e + rest)) == None
  {
    var n := LeadingOnes(o[0]);
    var x := e + rest;
    ParseEscapesHead(e, |o|);
    assert x[0] == Percent && x[1] == e[1] && x[2] == e[2];
    if |x| >= 3 * n {
      var k := |o| - 1;
      assert x[3..3 * n][3 * k] == rest[0];
      ParseEscapesNeedsPercent(x[3..3 * n], n - 1, k);
    }
    assert Decode(x) == None;
    RejectedAfter(a, x);
  }

  /** An escaped lead octet announcing one octet (a stray continuation
      octet) or more than four makes decodeURIComponent throw wherever the
      decoder meets it. */
  lemma InvalidLeadOctetRejected(a: JsString, e: JsString, b: Byte, rest: JsString)
    requires Decode(a).Some?
    requires |e| == 3 && ParseEscapes(e, 1) == Some([b])
    requires LeadingOnes(b) == 1 || LeadingOnes(b) > 4
    ensures Decode(a + (e + rest)) == None
  {
    var x := e + rest;
    ParseEscapesHead(e, 1);
    assert x[0] == Percent && x[1] == e[1] && x[2] == e[2];
    assert Decode(x) == None;
    RejectedAfter(a, x);
  }

  /** decodeMission returns a description holding an invalid UTF-8 escape
      group unchanged. */
  lemma InvalidUtf8KeepsInput(a: JsString, e: JsString, o: seq<Byte>, rest: JsString)
    requires Decode(a).Some?
    requires 2 <= |o| <= 4 && LeadingOnes(o[0]) == |o|
    requires |e| == 3 * |o| && ParseEscapes(e, |o|) == Some(o)
    requires forall cp :: IsScalarValue(cp) ==> Utf8Encode(cp) != o
    ensures DecodeMission(a + (e + rest)) == a + (e + rest)
  {
    InvalidUtf8EscapeRejected(a, e, o, rest);
  }

  lemma SurrogatePairRoundTrip(hi: CodeUnit, lo: CodeUnit)
    requires IsHighSurrogate(hi) && IsLowSurrogate(lo)
    ensures IsScalarValue(SurrogatePairValue(hi, lo))
    ensures Utf16Encode(SurrogatePairValue(hi, lo)) == [hi, lo]
  {
    var v := (hi - 0xD800) * 0x400 + (lo - 0xDC00);
    DivModUnique(hi - 0xD800, lo - 0xDC00, 0x400);
  }

  /** decodeURIComponent inverts encodeURIComponent. */
  lemma {:induction false} DecodeInvertsEncode(s: JsString)
    requires Encode(s).Some?
    ensures Decode(Encode(s).value) == Some(s)
    decreases |s|
  {
    if s == [] {
    } else if IsUnreserved(s[0]) {
      DecodeInvertsEncode(s[1..]);
      RoundTripUnreserved(s);
    } else if !IsSurrogate(s[0]) {
      DecodeInvertsEncode(s[1..]);
      RoundTripEscaped(s, 1, s[0]);
    } else {
      DecodeInvertsEncode(s[2..]);
      SurrogatePairRoundTrip(s[0], s[1]);
      RoundTripEscaped(s, 2, SurrogatePairValue(s[0], s[1]));
    }
  }

  lemma RoundTripUnreserved(s: JsString)
    requires s != [] && IsUnreserved(s[0]) && Encode(s).Some?
    requires Decode(Encode(s[1..]).value) == Some(s[1..])
    ensures Decode(Encode(s).value) == Some(s)
  {
    var e := Encode(s).value;
    assert e == [s[0]] + Encode(s[1..]).value;
    assert e[1..] == Encode(s[1..]).value;
    DecodePlainHead(e);
    assert [s[0]] + s[1..] == s;
  }

  /** The first k code units of s are the UTF-16 form of cp, which
      encodeURIComponent escapes. */
  lemma RoundTripEscaped(s: JsString, k: nat, cp: int)
    requires 1 <= k <= 2 && k <= |s| && IsScalarValue(cp) && Utf16Encode(cp) == s[..k]
    requires Encode(s).Some? && Encode(s[k..]).Some?
    requires Encode(s).value == EscapeOctets(Utf8Encode(cp)) + Encode(s[k..]).value
    requires Decode(Encode(s[k..]).value) == Some(s[k..])
    ensures Decode(Encode(s).value) == Some(s)
  {
    DecodeEscapedCodePoint(cp, Encode(s[k..]).value);
    assert s[..k] + s[k..] == s;
  }

  /** decodeMission recovers any string encodeURIComponent accepts. */
  lemma DecodeMissionInvertsEncode(s: JsString)
    requires Encode(s).Some?
    ensures DecodeMission(Encode(s).value) == s
  {
    DecodeInvertsEncode(s);
  }
}

=== FILE: wrappers.dfy ===
/** The failure-compatible Option type used throughout the model: `None`
    stands for a JavaScript exception (or an absent value), `Some` for a
    normal result. */
module Wrappers {

  datatype Option<+T> = None | Some(value: T) {

    /** A `:-` on this value stops at None. */
    predicate IsFailure() {
      None?
    }

    /** The None a `:-` passes on, at the caller's result type. */
    function PropagateFailure<U>(): Option<U>
      requires None?
    {
      None
    }

    /** What a `:-` binds when this is Some. */
    function Extract(): T
      requires Some?
    {
      value
    }

    /** The carried value, or `default` in place of None. */
    function GetOr(default: T): T {
      match this
      case Some(v) => v
      case None => default
    }
  }
}
